=== FILE: README.md ===
# Face logger: identity matching and visit deduplication

This project models the core of a face-logging service. A video feed is cut into frames. A detector finds the faces in each frame and gives each one an embedding vector. The core decides three things:

- which known person a face belongs to;
- whether the face is a new person who must be registered;
- whether this sighting is logged as a visit, given a per-person cooldown.

Four modules follow the source's structure:

- `Types` (`types.dfy`): `Option`, `Result` and the `Person` record (id, optional name, `lastSeen`, `visitCount`, default visit count 1).
- `Matcher` (`matcher.py`): two index-aligned sequences, one of known persons and one of their embeddings. It has a threshold, a best-match query, an append, and loading or refreshing from the stored person rows.
- `Tracker` (`active_person_tracker.py`): a map from person id to the time that person was last logged, plus a strict cooldown.
- `Recognizer` (`recognizer.py`): `process_frame` as a fold over the detected faces. It also holds the empty-crop rule for snapshots.

A fifth module, `Scenarios`, proves properties that span several faces or frames.

Modelling choices:

- Cosine similarity is the parameter `sim: (Embedding, Embedding) -> real`. Every matching property holds for any scoring function.
- The clock is the parameter `now`. Time is an integer count of microseconds, which is the resolution of Django datetimes and timedeltas.
- `find_best_match` returns the matched `Person` object. `process_frame` then mutates that same object, and the object is still stored in the matcher. The model returns the match's index, and the pipeline updates `persons[i]` in place.
- Person ids are random UUIDs in the source. Here they are natural numbers handed out from `nextId`, which starts above every loaded id. The model only relies on fresh ids being distinct from ids already in use.
- Saving a person and creating a `VisitLog` row are modelled by the state they leave behind. Saving a new person spends an id. Creating a visit row appends a `VisitRecord` to `visits`.
- Queries are functions of a state value. So `find_best_match` and `should_log_visit` cannot change the matcher or the tracker map.
- An exception that escapes `process_frame` ends the frame. The frame then yields `Failure`, and the effects of the faces before it are kept, as is the id spent on the failing face. The pipeline adds persons through the corrected, atomic add (see Findings), so a refused embedding leaves the matcher as it was.

## Model

| member | source | states |
|---|---|---|
| `Types.NewPerson` | profiles/models.py:7-13 | A new person has no name, is first seen now, and has visit count 1 |
| `Matcher.Loadable` | face_recognition/matcher.py:22-34 | Only rows whose embedding is present, readable and one-dimensional are kept, and every such row is kept. A single row is kept exactly when it holds a vector |
| `Matcher.LoadableAppend` | face_recognition/matcher.py:22-34 | Filtering a concatenation is concatenating the filtered parts, so the kept rows stay in database order |
| `Matcher.LoadData` | face_recognition/matcher.py:14-49 | The loaded matcher is aligned and uniform. It holds exactly the kept rows, in their order: index i holds the person and vector of the i-th kept row, and nothing else. Loading fails exactly when two kept vectors differ in length |
| `Matcher.RefreshKnownPersons` | face_recognition/matcher.py:102-111 | A refresh keeps the threshold and discards the old contents. Afterwards the matcher holds exactly the kept rows of the given ones, in order, each person with its vector, and every one-dimensional row is present. It succeeds exactly when the kept vectors agree in length |
| `Matcher.ArgMax` | face_recognition/matcher.py:95-96 | The chosen index holds a maximal score, and every earlier index scores strictly less (`np.argmax` picks the first maximum) |
| `Matcher.FindBestMatch` | face_recognition/matcher.py:76-100 | No match for an empty store or a query of another dimension. A match is a first-maximal index whose score is at least the threshold (inclusive). No match on a comparable query means every stored score is below the threshold |
| `Matcher.BestMatchIsDetermined` | face_recognition/matcher.py:95-100 | Any first-maximal index is the answer when its score reaches the threshold, and otherwise there is no answer; the result is unique |
| `Matcher.AddKnownPerson` | face_recognition/matcher.py:51-74 | On an empty store the embedding becomes the only row and fixes the dimension. Otherwise it succeeds exactly when the dimension agrees. On success, person and embedding are appended at the end, earlier entries stay put, and alignment is kept. On failure the store is unchanged and the error gives both dimensions |
| `Matcher.AddedEmbeddingIsMatched` | face_recognition/matcher.py:56-100 | After an add, querying the added embedding matches someone whose score is at least the embedding's self-score, when that self-score reaches the threshold |
| `Matcher.AddKnownPersonAsWritten` | face_recognition/matcher.py:56-74 | The source's order of effects: the person is appended first. On success the embedding is appended after the earlier ones (an empty store gets exactly it). On a dimension mismatch the exception leaves the embeddings unchanged and reports both dimensions |
| `Matcher.AsWrittenMismatchBreaksAlignment` | face_recognition/matcher.py:56-74 | After a refused add, the source holds one more person than embeddings |
| `Matcher.AsWrittenReturnsWrongPerson` | face_recognition/matcher.py:56-99 | A concrete run: a refused add, then a successful one. The second person's own face then returns the refused person |
| `Matcher.CorrectedReturnsRightPerson` | face_recognition/matcher.py:56-99 | The same run with the atomic add refuses without effect, and the second person's face returns that person |
| `Tracker.NewTracker` | face_recognition/active_person_tracker.py:5-7 | A new tracker has the given cooldown and no entries |
| `Tracker.ShouldLogVisit` | face_recognition/active_person_tracker.py:9-21 | An untracked id is always logged. A tracked id is logged exactly when strictly more than the cooldown has passed |
| `Tracker.RecordPersonLogged` | face_recognition/active_person_tracker.py:23-24 | The id's entry becomes now. The id joins the keys, every other entry is unchanged, and the cooldown is kept |
| `Tracker.ClearTracker` | face_recognition/active_person_tracker.py:26-27 | No id is tracked afterwards, and the cooldown is kept |
| `Tracker.RecordedIsSuppressedExactlyWithinCooldown` | face_recognition/active_person_tracker.py:17-24 | After a log at time t, the id is suppressed at t' exactly when t' - t is at most the cooldown |
| `Tracker.RecordLeavesOthersAlone` | face_recognition/active_person_tracker.py:23-24 | Logging one id does not change the decision for any other id |
| `Tracker.ClearedLogsEveryone` | face_recognition/active_person_tracker.py:13-15 | After a clear, every id is logged at any time |
| `Tracker.DefaultCooldownBoundary` | face_recognition/active_person_tracker.py:5-21 | With the default 60 s: logged at 0, suppressed at exactly 60 s, logged again one microsecond later |
| `Recognizer.CropSize` | face_recognition/recognizer.py:19-21 | The crop, sliced as numpy slices it, is empty exactly when it has no rows, no columns or no channels |
| `Recognizer.Logged` | face_recognition/recognizer.py:50-52 | Earlier visit rows are kept. Exactly one row is added, for this person at this time with this snapshot, when a snapshot exists, and none otherwise |
| `Recognizer.CreateSnapshot` | face_recognition/recognizer.py:17-26 | An empty crop yields no snapshot. A non-empty crop yields whatever the encoder returns for that region |
| `Recognizer.BoxInsideFrameCrop` | face_recognition/recognizer.py:19-25 | A box inside the frame crops exactly its own rows and columns. It yields no snapshot exactly when it has no width, no height, or the encoder fails |
| `Recognizer.VisitKnown` | face_recognition/recognizer.py:43-54 | For a matched person, the visit count goes up by one and last-seen becomes now exactly when the tracker allows it. A visit row is created only if it is allowed and a snapshot exists. The tracker records the id whenever it is allowed. Other persons and the embeddings are unchanged, and the result reports the updated count |
| `Recognizer.RegisterNew` | face_recognition/recognizer.py:55-76 | An unmatched face spends the next id. A refused embedding ends the frame with the matcher unchanged (the corrected add). Otherwise the new person (visit count 1, never incremented) and the embedding are appended. In a valid pipeline the first visit is always allowed: the tracker records it and a visit row is created exactly when a snapshot exists |
| `Recognizer.ProcessFace` | face_recognition/recognizer.py:37-76 | A face with a best match reports that person's id and name, always succeeds, spends no id and leaves the embeddings alone; when the tracker allows a visit, that person's count goes up by one, last-seen becomes now, the tracker records the id and a visit row is created exactly when a snapshot exists, and otherwise the count, tracker and visit rows are unchanged; every other person is unchanged. A face without one spends the next id; on success it reports that id with visit count 1 and appends `NewPerson` and the face's embedding, and its first visit (always allowed in a valid pipeline) is recorded by the tracker with a visit row exactly when a snapshot exists; a failure changes nothing but the spent id and happens only for an embedding of the wrong dimension. The result carries the face's box, the pipeline invariant is kept, and the visit log grows by at most one row |
| `Recognizer.ProcessFrame` | face_recognition/recognizer.py:28-78 | On success there is one result per face, in detection order. No faces gives an empty list and an unchanged state. The invariant is kept, and the matcher and visit log only grow at their ends, by at most one entry per face. On success persons and embeddings each grow by exactly the number of ids spent, one per registered face |
| `Recognizer.ProcessFrameAppend` | face_recognition/recognizer.py:37-78 | Processing faces `a + b` is processing `a`, then, unless that failed, processing `b` from the state `a` left, with the results concatenated |
| `Recognizer.ProcessFrameResultIsPerFace` | face_recognition/recognizer.py:37-76 | In a successful frame, result k is what face k yields, matched or registered, against the state the faces before it left |
| `Recognizer.NewPipeline` | face_recognition/recognizer.py:12-15 | Construction loads the matcher, starts an empty tracker and no visit rows, and yields a valid pipeline. It fails exactly when loading fails |
| `Recognizer.DefaultPipelineSettings` | face_recognition/recognizer.py:12-15 | With the constructor's defaults the pipeline matches at threshold 0.55 and waits sixty seconds between logs of one person |
| `Scenarios.UniformFacesNeverFail` | face_recognition/recognizer.py:37-78 | A frame whose faces all have the store's dimension always yields its results |
| `Scenarios.SameFrameRematch` | face_recognition/recognizer.py:41-69 | A new face seen twice in one frame is registered once. The second sighting is matched to the person registered moments before, and, at the frame's single instant, with a non-negative cooldown it is not counted again (see the clock line under Left out for a zero cooldown) |
| `Scenarios.ThreeFrameScenario` | face_recognition/recognizer.py:28-78 | Threshold 0.5, cooldown 30 s, the same face at t, t+5 s and t+35 s. The visit counts are 1, 1, 2, with one, one and two visit rows, and one person is registered |

## Left out

- Cosine similarity (`sklearn`), square roots and float rounding: the score is the abstract parameter `sim`. `cosine_similarity` raises on an empty embedding or one holding NaN or infinity, and that exception would escape `find_best_match` (face_recognition/matcher.py:90) and `process_frame`; the total `sim` cannot express it. A detector that emits finite vectors of a fixed length never reaches this case.
- Face detection and embedding (the insightface model): a frame arrives with its list of faces, and each box is already truncated to integers.
- JPEG encoding (`cv2.imencode`): the frame's `encode` function, which may fail.
- Video capture, the HTTP multipart stream, URL routing and the admin site: plumbing without matching logic.
- The Django ORM: `Person.save()`, the pickled embedding field and `VisitLog.objects.create`. Only the state they leave in memory is modelled (a spent id, a created visit row). The stored rows that a load reads are a parameter.
- Concurrency: the source takes no locks around match-then-register, so the model is sequential.
- The wall clock: one `now` per frame. The source reads the clock at each call inside a frame, and between two reads it saves a person, encodes a JPEG and creates a visit row, so its instants within one frame differ by milliseconds. The source also decides with one clock reading (face_recognition/active_person_tracker.py:10) and stores a later one (face_recognition/active_person_tracker.py:24), with the save, the JPEG encoding and the visit row in between, while the model uses `now` for both. So every cooldown boundary is shifted by that processing time, a few milliseconds: a sighting that the model logs just past the cooldown can be suppressed by the source. Within one frame the gap changes a decision only for a cooldown shorter than it: with a zero cooldown the source logs a person's second sighting in the same frame (the strict test at face_recognition/active_person_tracker.py:17), while the model does not.
- The `_loaded` flag and the reload inside `add_known_person`: construction loads explicitly. The partial state left by a refresh that raises halfway is not modelled.
- The placeholder re-initialisation at face_recognition/matcher.py:70-71: it only runs for an empty matrix, and that case never reaches it.
- The `len(similarity_scores) == 0` check at face_recognition/matcher.py:92-93: it cannot fire once the store is non-empty.
- Recognizer.RegisterNew: on a refused embedding the source leaves the new person appended to the matcher (face_recognition/matcher.py:56), and that state outlives the frame. The pipeline uses the corrected atomic add instead (see Findings), so the model does not promise the misaligned state the source reaches; `Matcher.AddKnownPersonAsWritten` models it on its own. The same substitution underlies the `Recognizer.ProcessFace` clause that a failure leaves the matcher unchanged, and the invariant kept by `Recognizer.ProcessFace` and `Recognizer.ProcessFrame`. Both adds give the same results, tracker and visit rows, and only `persons` differs: a refused add ends the frame either way. With an embedder of one fixed dimension whose length matches the stored rows, no add is ever refused. If the stored rows have another dimension (saved by an earlier embedding model, say), every query misses (face_recognition/matcher.py:86-88) and every add is refused (face_recognition/matcher.py:74). The source then grows `persons` by one per frame, and the model does not.
- Loaded vectors of different lengths are modelled as the exception that current numpy raises. Older numpy built an object array instead.

## Findings

| source | as written | input that shows it | evidently intended | confidence | as-written member | corrected member |
|---|---|---|---|---|---|---|
| face_recognition/matcher.py:56-74 | `known_persons.append` runs before `np.vstack` raises on a dimension mismatch, so the person stays without an embedding row | Store [A] with [[1,0]]. Add P with [1] (refused). Add Q with [0,1]. A query with [0,1] now returns P instead of Q | An append adds person and embedding together or not at all | medium, not executed | `Matcher.AddKnownPersonAsWritten` (`Matcher.AsWrittenReturnsWrongPerson`) | `Matcher.AddKnownPerson` (`Matcher.CorrectedReturnsRightPerson`) |

=== FILE: matcher.dfy ===
/**
 The face matcher: two index-aligned, growing sequences of known persons and
 their embeddings, a similarity threshold, and a nearest-match query.

 Cosine similarity is not computed here: every query takes the similarity
 function `sim` as a parameter, so the properties below hold for whatever
 real-valued score the numerical library produces.

 `find_best_match` in the source returns the matched `Person` object itself;
 the recognition pipeline then mutates that object, which is still the one
 stored in the matcher. The model returns the index of the match instead, so
 that the pipeline can update `persons[i]` in place.
 */
module Matcher {
  import opened Types

  type Embedding = seq<real>

  /** The similarity score between a query and a stored embedding. */
  type Similarity = (Embedding, Embedding) -> real

  /** The threshold a `FaceMatcher` uses when none is given. */
  const DefaultThreshold: real := 0.55

  datatype FaceMatcher = FaceMatcher(threshold: real, persons: seq<Person>, embeddings: seq<Embedding>)

  datatype MatchError =
    | DimensionMismatch(known: nat, given: nat)  // `np.vstack` refuses rows of another length
    | RaggedEmbeddings                           // `np.array` refuses vectors of different lengths

  /** All stored embeddings have the same length: they form one matrix. */
  predicate Uniform(embs: seq<Embedding>)
  {
    forall i, j :: 0 <= i < |embs| && 0 <= j < |embs| ==> |embs[i]| == |embs[j]|
  }

  /** The matcher's invariant: person `i` belongs to embedding `i`, and the
      embeddings form a matrix. */
  predicate Valid(m: FaceMatcher)
  {
    |m.persons| == |m.embeddings| && Uniform(m.embeddings)
  }

  /** The number of columns of the embedding matrix. An empty matrix has no
      fixed dimension yet: the first added row decides it. */
  function Dim(m: FaceMatcher): nat
    requires |m.embeddings| > 0
  {
    |m.embeddings[0]|
  }

  function Score(m: FaceMatcher, sim: Similarity, q: Embedding, i: nat): real
    requires i < |m.embeddings|
  {
    sim(q, m.embeddings[i])
  }

  /** `k` is where `np.argmax` lands: a maximal score, and the first one. */
  ghost predicate IsBestIndex(m: FaceMatcher, sim: Similarity, q: Embedding, k: nat)
  {
    && k < |m.embeddings|
    && (forall j :: 0 <= j < |m.embeddings| ==> Score(m, sim, q, j) <= Score(m, sim, q, k))
    && (forall j :: 0 <= j < k ==> Score(m, sim, q, j) < Score(m, sim, q, k))
  }

  // ---------------------------------------------------------------------------
  // Loading from the database
  // ---------------------------------------------------------------------------

  /** What `person.get_embedding()` yields for a database row. */
  datatype StoredEmbedding =
    | Blank               // the binary field is empty
    | Unreadable          // unpickling raises
    | Vector(v: Embedding) // a one-dimensional array
    | MultiDimensional    // an array of any other shape

  datatype Row = Row(person: Person, stored: StoredEmbedding)

  /** The rows `_load_data` keeps, in database order: those whose embedding
      is present, readable and one-dimensional. */
  function Loadable(rows: seq<Row>): (r: seq<Row>)
    ensures |r| <= |rows|
    ensures forall x :: x in r ==> x in rows && x.stored.Vector?
    ensures forall x :: x in rows && x.stored.Vector? ==> x in r
    ensures |rows| == 1 ==> r == (if rows[0].stored.Vector? then rows else [])
  {
    if |rows| == 0 then []
    else (if rows[0].stored.Vector? then [rows[0]] else []) + Loadable(rows[1..])
  }

  /** Filtering distributes over concatenation. With the one-row case this
      pins `Loadable` down: the kept rows appear in database order. */
  lemma {:induction false} LoadableAppend(a: seq<Row>, b: seq<Row>)
    ensures Loadable(a + b) == Loadable(a) + Loadable(b)
    decreases |a|
  {
    if |a| == 0 {
      assert a + b == b;
    } else {
      assert (a + b)[0] == a[0];
      assert (a + b)[1..] == a[1..] + b;
      LoadableAppend(a[1..], b);
    }
  }

  function PersonsOf(rows: seq<Row>): seq<Person>
  {
    seq(|rows|, i requires 0 <= i < |rows| => rows[i].person)
  }

  function VectorsOf(rows: seq<Row>): seq<Embedding>
    requires forall x :: x in rows ==> x.stored.Vector?
  {
    seq(|rows|, i requires 0 <= i < |rows| => rows[i].stored.v)
  }

  /** `_load_data`: keep the usable rows; stacking vectors of different
      lengths into one matrix raises. */
  function LoadData(threshold: real, rows: seq<Row>): (r: Result<FaceMatcher, MatchError>)
    ensures r.Success? ==> Valid(r.value) && r.value.threshold == threshold
    ensures r.Success? ==>
              && |r.value.persons| == |Loadable(rows)|
              && forall i :: 0 <= i < |r.value.persons| ==>
                   Row(r.value.persons[i], Vector(r.value.embeddings[i])) == Loadable(rows)[i]
    ensures r.Success? ==> forall x :: x in rows ==>
              (x.stored.Vector? <==>
               exists i :: 0 <= i < |r.value.persons| && Row(r.value.persons[i], Vector(r.value.embeddings[i])) == x)
    ensures r.Failure? <==>
              exists x, y :: x in rows && y in rows && x.stored.Vector? && y.stored.Vector? && |x.stored.v| != |y.stored.v|
  {
    var kept := Loadable(rows);
    var embs := VectorsOf(kept);
    if Uniform(embs) then
      var m := FaceMatcher(threshold, PersonsOf(kept), embs);
      assert forall i :: 0 <= i < |kept| ==> Row(m.persons[i], Vector(m.embeddings[i])) == kept[i];
      Success(m)
    else
      var i, j :| 0 <= i < |embs| && 0 <= j < |embs| && |embs[i]| != |embs[j]|;
      assert kept[i] in rows && kept[j] in rows;
      Failure(RaggedEmbeddings)
  }

  /** `refresh_known_persons`: forget everything in memory and load again,
      keeping the threshold. */
  function RefreshKnownPersons(m: FaceMatcher, rows: seq<Row>): (r: Result<FaceMatcher, MatchError>)
    ensures r.Success? ==> Valid(r.value) && r.value.threshold == m.threshold
    ensures r.Success? ==> forall i :: 0 <= i < |r.value.persons| ==>
              Row(r.value.persons[i], Vector(r.value.embeddings[i])) in rows
    ensures r.Success? ==> forall x :: x in rows && x.stored.Vector? ==>
              exists i :: 0 <= i < |r.value.persons| && Row(r.value.persons[i], Vector(r.value.embeddings[i])) == x
    ensures r.Success? ==>
              && |r.value.persons| == |Loadable(rows)|
              && forall i :: 0 <= i < |r.value.persons| ==>
                   Row(r.value.persons[i], Vector(r.value.embeddings[i])) == Loadable(rows)[i]
    ensures r.Success? <==>
              forall x, y :: x in rows && y in rows && x.stored.Vector? && y.stored.Vector? ==> |x.stored.v| == |y.stored.v|
  {
    var r := LoadData(m.threshold, rows);
    if r.Success? then
      assert forall i :: 0 <= i < |r.value.persons| ==>
          Row(r.value.persons[i], Vector(r.value.embeddings[i])) in Loadable(rows);
      r
    else r
  }

  // ---------------------------------------------------------------------------
  // Querying
  // ---------------------------------------------------------------------------

  function Scores(sim: Similarity, q: Embedding, embs: seq<Embedding>): seq<real>
  {
    seq(|embs|, i requires 0 <= i < |embs| => sim(q, embs[i]))
  }

  /** The index `np.argmax` returns: the first position of the maximum. */
  function ArgMax(s: seq<real>): (k: nat)
    requires |s| > 0
    ensures k < |s|
    ensures forall j :: 0 <= j < |s| ==> s[j] <= s[k]
    ensures forall j :: 0 <= j < k ==> s[j] < s[k]
  {
    if |s| == 1 then 0
    else
      var k := ArgMax(s[..|s| - 1]);
      if s[|s| - 1] > s[k] then |s| - 1 else k
  }

  /** `find_best_match`: the index of the stored person whose embedding
      scores highest against `q`, if that score reaches the threshold. An
      empty store or a query of another dimension matches nobody.
      (The source relies on there being a person for every embedding row.) */
  function FindBestMatch(m: FaceMatcher, sim: Similarity, q: Embedding): (r: Option<nat>)
    requires |m.embeddings| <= |m.persons|
    ensures |m.persons| == 0 || |m.embeddings| == 0 ==> r.None?
    ensures |m.embeddings| > 0 && |q| != Dim(m) ==> r.None?
    ensures r.Some? ==> r.value < |m.persons| && IsBestIndex(m, sim, q, r.value)
    ensures r.Some? ==> Score(m, sim, q, r.value) >= m.threshold
    ensures r.None? && |m.embeddings| > 0 && |q| == Dim(m) ==>
              forall j :: 0 <= j < |m.embeddings| ==> Score(m, sim, q, j) < m.threshold
  {
    if |m.persons| == 0 || |m.embeddings| == 0 then None
    else if |q| != Dim(m) then None
    else
      var scores := Scores(sim, q, m.embeddings);
      assert forall j :: 0 <= j < |scores| ==> scores[j] == Score(m, sim, q, j);
      var k := ArgMax(scores);
      if scores[k] >= m.threshold then Some(k) else None
  }

  /** The properties stated by `FindBestMatch` pin its result down: any
      index that is a first maximum is the answer whenever it scores at
      least the threshold, and otherwise there is no answer. */
  lemma BestMatchIsDetermined(m: FaceMatcher, sim: Similarity, q: Embedding, k: nat)
    requires |m.embeddings| <= |m.persons|
    requires |m.embeddings| > 0 && |q| == Dim(m)
    requires IsBestIndex(m, sim, q, k)
    ensures FindBestMatch(m, sim, q) == (if Score(m, sim, q, k) >= m.threshold then Some(k) else None)
  {
  }

  // ---------------------------------------------------------------------------
  // Growing the store
  // ---------------------------------------------------------------------------

  /** `add_known_person`, with the append made atomic: on an empty store the
      new embedding becomes the only row and fixes the dimension; otherwise a
      row of another length is refused and nothing changes. */
  function AddKnownPerson(m: FaceMatcher, p: Person, e: Embedding): (r: Result<FaceMatcher, MatchError>)
    ensures r.Success? <==> |m.embeddings| == 0 || |e| == Dim(m)
    ensures r.Success? ==> r.value.threshold == m.threshold && r.value.persons == m.persons + [p]
    ensures r.Success? ==> |r.value.embeddings| > 0 && r.value.embeddings[|r.value.embeddings| - 1] == e
    ensures r.Success? && |m.embeddings| == 0 ==> r.value.embeddings == [e] && Dim(r.value) == |e|
    ensures r.Success? ==> r.value.embeddings == m.embeddings + [e]
    ensures Valid(m) && r.Success? ==> Valid(r.value)
    ensures r.Failure? ==> |m.embeddings| > 0 && |e| != Dim(m) && r.error == DimensionMismatch(Dim(m), |e|)
  {
    if |m.embeddings| == 0 then
      Success(m.(persons := m.persons + [p], embeddings := [e]))
    else if |m.embeddings[0]| != |e| then
      Failure(DimensionMismatch(Dim(m), |e|))
    else
      Success(m.(persons := m.persons + [p], embeddings := m.embeddings + [e]))
  }

  /** Whatever it is, a person just added with an embedding that scores at
      least the threshold against itself is found again by that embedding. */
  lemma AddedEmbeddingIsMatched(m: FaceMatcher, sim: Similarity, p: Person, e: Embedding)
    requires Valid(m)
    requires AddKnownPerson(m, p, e).Success?
    requires sim(e, e) >= m.threshold
    ensures var m' := AddKnownPerson(m, p, e).value;
            FindBestMatch(m', sim, e).Some? &&
            Score(m', sim, e, FindBestMatch(m', sim, e).value) >= sim(e, e)
  {
  }

  /** What the source does on a dimension mismatch: `known_persons.append`
      runs before `np.vstack` raises, so the person stays behind without an
      embedding row. `error` is the exception that escapes. */
  datatype AddOutcome = AddOutcome(state: FaceMatcher, error: Option<MatchError>)

  function AddKnownPersonAsWritten(m: FaceMatcher, p: Person, e: Embedding): (r: AddOutcome)
    ensures r.state.persons == m.persons + [p] && r.state.threshold == m.threshold
    ensures r.error.Some? <==> |m.embeddings| > 0 && |e| != Dim(m)
    ensures r.error.Some? ==> r.state.embeddings == m.embeddings && r.error.value == DimensionMismatch(Dim(m), |e|)
    ensures r.error.None? ==> r.state.embeddings == m.embeddings + [e]
  {
    var m1 := m.(persons := m.persons + [p]);
    if |m.embeddings| == 0 then
      AddOutcome(m1.(embeddings := [e]), None)
    else if |m.embeddings[0]| != |e| then
      AddOutcome(m1, Some(DimensionMismatch(Dim(m), |e|)))
    else
      AddOutcome(m1.(embeddings := m.embeddings + [e]), None)
  }

  /** After a refused add, the source's two sequences no longer line up. */
  lemma AsWrittenMismatchBreaksAlignment(m: FaceMatcher, p: Person, e: Embedding)
    requires Valid(m) && |m.embeddings| > 0 && |e| != Dim(m)
    ensures var r := AddKnownPersonAsWritten(m, p, e);
            r.error.Some? && |r.state.persons| == |r.state.embeddings| + 1 && !Valid(r.state)
  {
  }

  function Dot(a: Embedding, b: Embedding): real
  {
    if |a| == 0 || |b| == 0 then 0.0 else a[0] * b[0] + Dot(a[1..], b[1..])
  }

  /** A concrete run of the source's behaviour: one refused add followed by
      a successful one makes the query for the second person's face return
      the person whose add was refused. */
  lemma AsWrittenReturnsWrongPerson()
    ensures var a := NewPerson(1, 0);
            var p := NewPerson(2, 0);
            var q := NewPerson(3, 0);
            var m0 := FaceMatcher(0.5, [a], [[1.0, 0.0]]);
            var r1 := AddKnownPersonAsWritten(m0, p, [1.0]);
            var r2 := AddKnownPersonAsWritten(r1.state, q, [0.0, 1.0]);
            var sim: Similarity := (x, y) => Dot(x, y);
            && r1.error.Some? && r2.error.None?
            && FindBestMatch(r2.state, sim, [0.0, 1.0]) == Some(1)
            && r2.state.persons[1] == p && p != q
  {
    var a := NewPerson(1, 0);
    var p := NewPerson(2, 0);
    var q := NewPerson(3, 0);
    var m0 := FaceMatcher(0.5, [a], [[1.0, 0.0]]);
    var r1 := AddKnownPersonAsWritten(m0, p, [1.0]);
    var r2 := AddKnownPersonAsWritten(r1.state, q, [0.0, 1.0]);
    var sim: Similarity := (x, y) => Dot(x, y);
    assert r2.state.embeddings == [[1.0, 0.0], [0.0, 1.0]];
    assert Dot([0.0, 1.0], [1.0, 0.0]) == 0.0;
    assert Dot([0.0, 1.0], [0.0, 1.0]) == 1.0;
    var s := Scores(sim, [0.0, 1.0], r2.state.embeddings);
    assert s == [0.0, 1.0];
    assert ArgMax(s) == 1;
  }

  /** With the corrected add, the refused add leaves the store as it was, and
      the second person is matched by its own face. */
  lemma CorrectedReturnsRightPerson()
    ensures var a := NewPerson(1, 0);
            var p := NewPerson(2, 0);
            var q := NewPerson(3, 0);
            var m0 := FaceMatcher(0.5, [a], [[1.0, 0.0]]);
            var r1 := AddKnownPerson(m0, p, [1.0]);
            var r2 := AddKnownPerson(m0, q, [0.0, 1.0]);
            var sim: Similarity := (x, y) => Dot(x, y);
            && r1.Failure? && r2.Success?
            && FindBestMatch(r2.value, sim, [0.0, 1.0]) == Some(1)
            && r2.value.persons[1] == q
  {
    var a := NewPerson(1, 0);
    var q := NewPerson(3, 0);
    var m0 := FaceMatcher(0.5, [a], [[1.0, 0.0]]);
    var r2 := AddKnownPerson(m0, q, [0.0, 1.0]);
    var sim: Similarity := (x, y) => Dot(x, y);
    assert r2.value.embeddings == [[1.0, 0.0], [0.0, 1.0]];
    assert Dot([0.0, 1.0], [1.0, 0.0]) == 0.0;
    assert Dot([0.0, 1.0], [0.0, 1.0]) == 1.0;
    var s := Scores(sim, [0.0, 1.0], r2.value.embeddings);
    assert s == [0.0, 1.0];
    assert ArgMax(s) == 1;
  }
}

=== FILE: recognizer.dfy ===
/**
 The recognition pipeline: for each face detected in a frame, in detection
 order, find the best-matching known person or register a new one, decide
 through the tracker whether this sighting is logged as a visit, and emit one
 result per face.

 Detection and embedding are outside the model: a frame arrives together with
 the list of faces found in it. Saving persons and creating visit-log rows are
 modelled by the state they leave behind: identifiers are handed out from
 `nextId`, and created visit-log rows are appended to `visits`.
 */
module Recognizer {
  import opened Types
  import Matcher
  import Tracker

  /** A face box in pixel coordinates, already truncated to integers. */
  datatype BBox = BBox(x1: int, y1: int, x2: int, y2: int)

  datatype Face = Face(embedding: Matcher.Embedding, bbox: BBox)

  /** Encoded JPEG bytes of a face crop. */
  type Snapshot = seq<bv8>

  /** A region of the frame in array coordinates: rows `top` up to `bottom`,
      columns `left` up to `right`, bounds already clamped to the frame. */
  datatype Crop = Crop(top: nat, bottom: nat, left: nat, right: nat)

  /** A captured frame: its shape, and what JPEG-encoding a region of it
      yields (the encoder may fail). */
  datatype Frame = Frame(height: nat, width: nat, channels: nat, encode: Crop -> Option<Snapshot>)

  /** A created visit-log row. */
  datatype VisitRecord = VisitRecord(person: PersonId, timestamp: Instant, snapshot: Snapshot)

  /** The entry reported for one face. */
  datatype FaceResult = FaceResult(personId: PersonId, name: Option<string>, visitCount: nat, bbox: BBox)

  datatype Pipeline = Pipeline(
    matcher: Matcher.FaceMatcher,
    tracker: Tracker.ActivePersonTracker,
    visits: seq<VisitRecord>,
    nextId: PersonId)

  /** The exception that escapes `process_frame` when a new person's
      embedding cannot be stacked onto the matcher's matrix. */
  datatype FrameError = RegistrationFailed(cause: Matcher.MatchError)

  datatype FaceStep = FaceStep(state: Pipeline, result: Result<FaceResult, FrameError>)

  /** The state after a frame, and either the per-face results or the error
      that ended the frame early (the state keeps every effect made before). */
  datatype FrameOutput = FrameOutput(state: Pipeline, result: Result<seq<FaceResult>, FrameError>)

  /** The pipeline's invariant: the matcher is aligned, and every identifier
      in use, by a known person or by a tracker entry, was handed out before
      `nextId`. */
  predicate Valid(p: Pipeline)
  {
    && Matcher.Valid(p.matcher)
    && (forall i :: 0 <= i < |p.matcher.persons| ==> p.matcher.persons[i].id < p.nextId)
    && (forall id :: id in p.tracker.lastLogged ==> id < p.nextId)
  }

  // ---------------------------------------------------------------------------
  // Snapshots
  // ---------------------------------------------------------------------------

  /** Where a Python slice bound `i` lands in a sequence of length `n`:
      negative bounds count from the end, and both ends are clamped. */
  function SliceBound(i: int, n: nat): (b: nat)
    ensures b <= n
    ensures 0 <= i <= n ==> b == i
  {
    if i < 0 then (if i + n < 0 then 0 else i + n)
    else if i > n then n
    else i
  }

  /** The rows `y1:y2` and columns `x1:x2` of the frame, as numpy slices them. */
  function CropOf(frame: Frame, box: BBox): Crop
  {
    Crop(SliceBound(box.y1, frame.height), SliceBound(box.y2, frame.height),
         SliceBound(box.x1, frame.width), SliceBound(box.x2, frame.width))
  }

  /** The number of elements of the cropped array. */
  function CropSize(frame: Frame, box: BBox): (size: nat)
    ensures size == 0 <==>
              || frame.channels == 0
              || CropOf(frame, box).bottom <= CropOf(frame, box).top
              || CropOf(frame, box).right <= CropOf(frame, box).left
  {
    var c := CropOf(frame, box);
    var rows := if c.bottom > c.top then c.bottom - c.top else 0;
    var cols := if c.right > c.left then c.right - c.left else 0;
    ProductIsZero(rows, cols, frame.channels);
    rows * cols * frame.channels
  }

  lemma ProductIsZero(a: nat, b: nat, c: nat)
    ensures a * b * c == 0 <==> a == 0 || b == 0 || c == 0
  {
  }

  /** `_create_snapshot`: an empty crop gives no snapshot; otherwise the
      snapshot is whatever encoding the crop yields. */
  function CreateSnapshot(frame: Frame, box: BBox): (r: Option<Snapshot>)
    ensures CropSize(frame, box) == 0 ==> r.None?
    ensures CropSize(frame, box) > 0 ==> r == frame.encode(CropOf(frame, box))
  {
    if CropSize(frame, box) == 0 then None
    else frame.encode(CropOf(frame, box))
  }

  /** A box lying inside the frame crops exactly its own rows and columns,
      and that crop is empty only when the box has no width or height. */
  lemma BoxInsideFrameCrop(frame: Frame, box: BBox)
    requires frame.channels > 0
    requires 0 <= box.x1 <= frame.width && 0 <= box.x2 <= frame.width
    requires 0 <= box.y1 <= frame.height && 0 <= box.y2 <= frame.height
    ensures CropOf(frame, box) == Crop(box.y1, box.y2, box.x1, box.x2)
    ensures CreateSnapshot(frame, box).None? <==>
              box.x2 <= box.x1 || box.y2 <= box.y1 || frame.encode(CropOf(frame, box)).None?
  {
  }

  // ---------------------------------------------------------------------------
  // One face
  // ---------------------------------------------------------------------------

  function ResultFor(person: Person, box: BBox): FaceResult
  {
    FaceResult(person.id, person.name, person.visitCount, box)
  }

  /** The visit-log rows after a logged sighting: a row is created only when
      there is a snapshot. */
  function Logged(visits: seq<VisitRecord>, id: PersonId, now: Instant, snapshot: Option<Snapshot>): (r: seq<VisitRecord>)
    ensures visits <= r
    ensures |r| == |visits| + (if snapshot.Some? then 1 else 0)
    ensures snapshot.Some? ==> r[|visits|] == VisitRecord(id, now, snapshot.value)
  {
    match snapshot
    case None => visits
    case Some(s) => visits + [VisitRecord(id, now, s)]
  }

  /** A face matched to known person `i`. If the tracker allows a visit, the
      person's visit count goes up by one and `last_seen` becomes `now`, a
      visit row is created when a snapshot exists, and the tracker records
      the person whether or not it does. Otherwise nothing changes. */
  function VisitKnown(p: Pipeline, i: nat, frame: Frame, face: Face, now: Instant): (r: FaceStep)
    requires i < |p.matcher.persons|
    ensures |r.state.matcher.persons| == |p.matcher.persons|
    ensures var before := p.matcher.persons[i];
            var log := Tracker.ShouldLogVisit(p.tracker, before.id, now);
            var after := r.state.matcher.persons[i];
            && after.id == before.id && after.name == before.name
            && after.visitCount == (if log then before.visitCount + 1 else before.visitCount)
            && after.lastSeen == (if log then now else before.lastSeen)
            && r.result == Success(FaceResult(before.id, before.name, after.visitCount, face.bbox))
            && r.state.tracker == (if log then Tracker.RecordPersonLogged(p.tracker, before.id, now) else p.tracker)
            && r.state.visits == (if log then Logged(p.visits, before.id, now, CreateSnapshot(frame, face.bbox)) else p.visits)
    ensures forall j :: 0 <= j < |p.matcher.persons| && j != i ==> r.state.matcher.persons[j] == p.matcher.persons[j]
    ensures r.state.matcher.embeddings == p.matcher.embeddings && r.state.matcher.threshold == p.matcher.threshold
    ensures r.state.nextId == p.nextId
  {
    var person := p.matcher.persons[i];
    if Tracker.ShouldLogVisit(p.tracker, person.id, now) then
      var person' := person.(lastSeen := now, visitCount := person.visitCount + 1);
      var snapshot := CreateSnapshot(frame, face.bbox);
      var p' := p.(
        matcher := p.matcher.(persons := p.matcher.persons[i := person']),
        visits := Logged(p.visits, person.id, now, snapshot),
        tracker := Tracker.RecordPersonLogged(p.tracker, person.id, now));
      FaceStep(p', Success(ResultFor(person', face.bbox)))
    else
      FaceStep(p, Success(ResultFor(person, face.bbox)))
  }

  /** A face nobody matched: a new person is created with the next
      identifier and added to the matcher. If the matcher refuses the
      embedding the error escapes, with the identifier already spent. In a
      valid pipeline the tracker never saw the new identifier, so the first
      visit is logged: the tracker records it, a visit row is created when a
      snapshot exists, and the visit count stays at its default. */
  function RegisterNew(p: Pipeline, frame: Frame, face: Face, now: Instant): (r: FaceStep)
    ensures r.state.nextId == p.nextId + 1
    ensures var added := Matcher.AddKnownPerson(p.matcher, NewPerson(p.nextId, now), face.embedding);
            && (added.Failure? ==> r == FaceStep(p.(nextId := p.nextId + 1), Failure(RegistrationFailed(added.error))))
            && (added.Success? ==> r.state.matcher == added.value && r.result.Success?)
    ensures r.result.Success? ==>
              && r.state.matcher.persons == p.matcher.persons + [NewPerson(p.nextId, now)]
              && r.result.value == FaceResult(p.nextId, None, 1, face.bbox)
    ensures r.result.Success? ==> r.state.matcher.embeddings == p.matcher.embeddings + [face.embedding]
    ensures Valid(p) && r.result.Success? ==>
              && r.state.tracker == Tracker.RecordPersonLogged(p.tracker, p.nextId, now)
              && r.state.visits == Logged(p.visits, p.nextId, now, CreateSnapshot(frame, face.bbox))
  {
    var person := NewPerson(p.nextId, now);
    var p1 := p.(nextId := p.nextId + 1);
    match Matcher.AddKnownPerson(p.matcher, person, face.embedding)
    case Failure(e) => FaceStep(p1, Failure(RegistrationFailed(e)))
    case Success(m) =>
      var p2 := p1.(matcher := m);
      if Tracker.ShouldLogVisit(p2.tracker, person.id, now) then
        var snapshot := CreateSnapshot(frame, face.bbox);
        var p3 := p2.(
          visits := Logged(p2.visits, person.id, now, snapshot),
          tracker := Tracker.RecordPersonLogged(p2.tracker, person.id, now));
        FaceStep(p3, Success(ResultFor(person, face.bbox)))
      else
        FaceStep(p2, Success(ResultFor(person, face.bbox)))
  }

  /** One iteration of `process_frame`'s loop. */
  function ProcessFace(p: Pipeline, sim: Matcher.Similarity, frame: Frame, face: Face, now: Instant): (r: FaceStep)
    requires |p.matcher.embeddings| <= |p.matcher.persons|
    ensures |r.state.matcher.embeddings| <= |r.state.matcher.persons|
    ensures Valid(p) ==> Valid(r.state)
    ensures r.state.matcher.threshold == p.matcher.threshold && r.state.tracker.cooldown == p.tracker.cooldown
    ensures r.result.Success? ==> r.result.value.bbox == face.bbox
    ensures p.matcher.embeddings <= r.state.matcher.embeddings
    ensures |r.state.matcher.embeddings| <= |p.matcher.embeddings| + 1
    ensures |r.state.matcher.embeddings| == |p.matcher.embeddings| + 1 ==>
              r.state.matcher.embeddings[|p.matcher.embeddings|] == face.embedding
    ensures p.visits <= r.state.visits && |r.state.visits| <= |p.visits| + 1
    ensures r.result.Failure? ==>
              |p.matcher.embeddings| > 0 && |face.embedding| != Matcher.Dim(p.matcher)
    ensures p.nextId <= r.state.nextId
    ensures r.result.Success? ==>
              && |r.state.matcher.persons| == |p.matcher.persons| + (r.state.nextId - p.nextId)
              && |r.state.matcher.embeddings| == |p.matcher.embeddings| + (r.state.nextId - p.nextId)
    ensures var found := Matcher.FindBestMatch(p.matcher, sim, face.embedding);
            found.Some? ==>
              && r.result.Success?
              && r.result.value.personId == p.matcher.persons[found.value].id
              && |r.state.matcher.persons| == |p.matcher.persons|
              && r.state.matcher.embeddings == p.matcher.embeddings
              && r.state.nextId == p.nextId
    ensures var found := Matcher.FindBestMatch(p.matcher, sim, face.embedding);
            found.Some? ==>
              var before := p.matcher.persons[found.value];
              var log := Tracker.ShouldLogVisit(p.tracker, before.id, now);
              && r.result.Success?
              && r.result.value.name == before.name
              && r.result.value.visitCount == (if log then before.visitCount + 1 else before.visitCount)
              && r.state.matcher.persons[found.value].visitCount == r.result.value.visitCount
              && r.state.matcher.persons[found.value].lastSeen == (if log then now else before.lastSeen)
              && r.state.tracker == (if log then Tracker.RecordPersonLogged(p.tracker, before.id, now) else p.tracker)
              && r.state.visits == (if log then Logged(p.visits, before.id, now, CreateSnapshot(frame, face.bbox)) else p.visits)
              && r.state.matcher.persons[found.value].id == before.id
              && r.state.matcher.persons[found.value].name == before.name
              && (forall j :: 0 <= j < |p.matcher.persons| && j != found.value ==>
                    r.state.matcher.persons[j] == p.matcher.persons[j])
    ensures var found := Matcher.FindBestMatch(p.matcher, sim, face.embedding);
            found.None? && r.result.Success? ==>
              var log := Tracker.ShouldLogVisit(p.tracker, p.nextId, now);
              && (Valid(p) ==> log)
              && r.state.tracker == (if log then Tracker.RecordPersonLogged(p.tracker, p.nextId, now) else p.tracker)
              && r.state.visits == (if log then Logged(p.visits, p.nextId, now, CreateSnapshot(frame, face.bbox)) else p.visits)
    ensures var found := Matcher.FindBestMatch(p.matcher, sim, face.embedding);
            found.None? && r.result.Failure? ==> r.state == p.(nextId := p.nextId + 1)
    ensures var found := Matcher.FindBestMatch(p.matcher, sim, face.embedding);
            found.None? ==>
              && r.state.nextId == p.nextId + 1
              && (r.result.Success? ==>
                    && r.result.value.personId == p.nextId && r.result.value.visitCount == 1
                    && r.state.matcher.persons == p.matcher.persons + [NewPerson(p.nextId, now)]
                    && r.state.matcher.embeddings == p.matcher.embeddings + [face.embedding])
              && (r.result.Failure? ==> r.state.matcher == p.matcher)
  {
    match Matcher.FindBestMatch(p.matcher, sim, face.embedding)
    case Some(i) => VisitKnown(p, i, frame, face, now)
    case None => RegisterNew(p, frame, face, now)
  }

  // ---------------------------------------------------------------------------
  // One frame
  // ---------------------------------------------------------------------------

  /** `process_frame`: the faces are handled in detection order, each seeing
      the state the previous ones left, and each contributes one result. An
      error raised by one face ends the frame. */
  function ProcessFrame(p: Pipeline, sim: Matcher.Similarity, frame: Frame, faces: seq<Face>, now: Instant): (r: FrameOutput)
    requires |p.matcher.embeddings| <= |p.matcher.persons|
    ensures |r.state.matcher.embeddings| <= |r.state.matcher.persons|
    ensures Valid(p) ==> Valid(r.state)
    ensures r.state.matcher.threshold == p.matcher.threshold && r.state.tracker.cooldown == p.tracker.cooldown
    ensures r.result.Success? ==>
              |r.result.value| == |faces| &&
              forall k :: 0 <= k < |faces| ==> r.result.value[k].bbox == faces[k].bbox
    ensures |faces| == 0 ==> r == FrameOutput(p, Success([]))
    ensures p.matcher.embeddings <= r.state.matcher.embeddings
    ensures |r.state.matcher.embeddings| <= |p.matcher.embeddings| + |faces|
    ensures p.visits <= r.state.visits && |r.state.visits| <= |p.visits| + |faces|
    ensures p.nextId <= r.state.nextId
    ensures r.result.Success? ==>
              && |r.state.matcher.persons| == |p.matcher.persons| + (r.state.nextId - p.nextId)
              && |r.state.matcher.embeddings| == |p.matcher.embeddings| + (r.state.nextId - p.nextId)
    decreases |faces|
  {
    if |faces| == 0 then FrameOutput(p, Success([]))
    else
      var step := ProcessFace(p, sim, frame, faces[0], now);
      match step.result
      case Failure(e) => FrameOutput(step.state, Failure(e))
      case Success(first) =>
        var rest := ProcessFrame(step.state, sim, frame, faces[1..], now);
        match rest.result
        case Failure(e) => FrameOutput(rest.state, Failure(e))
        case Success(more) => FrameOutput(rest.state, Success([first] + more))
  }

  /** Running the faces `b` after a frame prefix has produced `o`: nothing
      more happens once the prefix failed. */
  function Continue(o: FrameOutput, sim: Matcher.Similarity, frame: Frame, b: seq<Face>, now: Instant): FrameOutput
    requires |o.state.matcher.embeddings| <= |o.state.matcher.persons|
  {
    match o.result
    case Failure(_) => o
    case Success(done) =>
      var rest := ProcessFrame(o.state, sim, frame, b, now);
      match rest.result
      case Failure(e) => FrameOutput(rest.state, Failure(e))
      case Success(more) => FrameOutput(rest.state, Success(done + more))
  }

  /** A frame split in two is the first part followed by the second, started
      from the state the first part left. */
  lemma {:induction false} ProcessFrameAppend(
    p: Pipeline, sim: Matcher.Similarity, frame: Frame, a: seq<Face>, b: seq<Face>, now: Instant)
    requires |p.matcher.embeddings| <= |p.matcher.persons|
    ensures ProcessFrame(p, sim, frame, a + b, now) == Continue(ProcessFrame(p, sim, frame, a, now), sim, frame, b, now)
    decreases |a|
  {
    if |a| == 0 {
      assert a + b == b;
      var rest := ProcessFrame(p, sim, frame, b, now);
      if rest.result.Success? {
        assert [] + rest.result.value == rest.result.value;
      }
    } else {
      assert (a + b)[0] == a[0];
      assert (a + b)[1..] == a[1..] + b;
      var step := ProcessFace(p, sim, frame, a[0], now);
      if step.result.Success? {
        ProcessFrameAppend(step.state, sim, frame, a[1..], b, now);
        var mid := ProcessFrame(step.state, sim, frame, a[1..], now);
        if mid.result.Success? {
          var rest := ProcessFrame(mid.state, sim, frame, b, now);
          if rest.result.Success? {
            assert [step.result.value] + (mid.result.value + rest.result.value)
                == ([step.result.value] + mid.result.value) + rest.result.value;
          }
        }
      }
    }
  }

  /** Result `k` of a successful frame is what face `k` yields on the state
      left by the faces before it: each face is matched or registered against
      a matcher that already holds every person registered earlier in the
      frame. */
  lemma ProcessFrameResultIsPerFace(
    p: Pipeline, sim: Matcher.Similarity, frame: Frame, faces: seq<Face>, now: Instant, k: nat)
    requires |p.matcher.embeddings| <= |p.matcher.persons|
    requires ProcessFrame(p, sim, frame, faces, now).result.Success?
    requires k < |faces|
    ensures var before := ProcessFrame(p, sim, frame, faces[..k], now);
            && before.result.Success?
            && ProcessFace(before.state, sim, frame, faces[k], now).result.Success?
            && ProcessFrame(p, sim, frame, faces, now).result.value[k]
               == ProcessFace(before.state, sim, frame, faces[k], now).result.value
  {
    assert faces == faces[..k] + faces[k..];
    ProcessFrameAppend(p, sim, frame, faces[..k], faces[k..], now);
    var before := ProcessFrame(p, sim, frame, faces[..k], now);
    var tail := faces[k..];
    assert tail[0] == faces[k];
    var step := ProcessFace(before.state, sim, frame, tail[0], now);
    var rest := ProcessFrame(before.state, sim, frame, tail, now);
    assert rest.result.Success? ==> step.result.Success? && rest.result.value[0] == step.result.value;
  }

  // ---------------------------------------------------------------------------
  // Construction
  // ---------------------------------------------------------------------------

  /** The largest identifier among `persons` (0 for none). */
  function MaxId(persons: seq<Person>): (r: nat)
    ensures forall i :: 0 <= i < |persons| ==> persons[i].id <= r
    ensures |persons| > 0 ==> exists i :: 0 <= i < |persons| && persons[i].id == r
  {
    if |persons| == 0 then 0
    else
      var rest := MaxId(persons[1..]);
      if persons[0].id >= rest then persons[0].id else rest
  }

  /** `RecognizerPipeline.__init__`: load the known persons, start with an
      empty tracker and no visit rows; fresh identifiers start above every
      loaded one. */
  function NewPipeline(threshold: real, cooldown: int, rows: seq<Matcher.Row>): (r: Result<Pipeline, Matcher.MatchError>)
    ensures r.Success? ==> Valid(r.value)
    ensures r.Success? ==> r.value.tracker == Tracker.NewTracker(cooldown) && r.value.visits == []
    ensures r.Success? <==> Matcher.LoadData(threshold, rows).Success?
    ensures r.Success? ==> r.value.matcher == Matcher.LoadData(threshold, rows).value
  {
    match Matcher.LoadData(threshold, rows)
    case Failure(e) => Failure(e)
    case Success(m) => Success(Pipeline(m, Tracker.NewTracker(cooldown), [], MaxId(m.persons) + 1))
  }

  /** `RecognizerPipeline()` with its defaults: a threshold of 0.55 and a
      sixty-second cooldown. */
  lemma DefaultPipelineSettings(rows: seq<Matcher.Row>)
    requires NewPipeline(Matcher.DefaultThreshold, Tracker.DefaultCooldown, rows).Success?
    ensures var p := NewPipeline(Matcher.DefaultThreshold, Tracker.DefaultCooldown, rows).value;
            && p.matcher.threshold == 0.55
            && p.tracker.cooldown == 60 * MicrosPerSecond
            && Valid(p)
  {
  }
}

=== FILE: scenarios.dfy ===
/**
 Properties of the recognition pipeline that span several faces or several
 frames.
 */
module Scenarios {
  import opened Types
  import Matcher
  import Tracker
  import opened Recognizer

  /** A frame fails only on an embedding of the wrong dimension: when every
      face has the store's dimension (or the store is empty and all faces
      agree), the frame yields its results. */
  lemma {:induction false} UniformFacesNeverFail(
    p: Pipeline, sim: Matcher.Similarity, frame: Frame, faces: seq<Face>, now: Instant, d: nat)
    requires Valid(p)
    requires |p.matcher.embeddings| == 0 || Matcher.Dim(p.matcher) == d
    requires forall k :: 0 <= k < |faces| ==> |faces[k].embedding| == d
    ensures ProcessFrame(p, sim, frame, faces, now).result.Success?
    decreases |faces|
  {
    if |faces| > 0 {
      var step := ProcessFace(p, sim, frame, faces[0], now);
      assert step.result.Success?;
      var embs := step.state.matcher.embeddings;
      if |embs| > 0 {
        if |p.matcher.embeddings| > 0 {
          assert embs[0] == p.matcher.embeddings[0];
        } else {
          assert embs[0] == faces[0].embedding;
        }
      }
      UniformFacesNeverFail(step.state, sim, frame, faces[1..], now, d);
    }
  }

  /** Two sightings of a new face in one frame: the first registers a new
      person, the second is matched to that person because the matcher was
      updated in place, and (with a non-negative cooldown) is not logged a
      second time. */
  lemma SameFrameRematch(
    p: Pipeline, sim: Matcher.Similarity, frame: Frame, e: Matcher.Embedding, b1: BBox, b2: BBox, now: Instant)
    requires Valid(p)
    requires Matcher.FindBestMatch(p.matcher, sim, e).None?
    requires |p.matcher.embeddings| == 0 || |e| == Matcher.Dim(p.matcher)
    requires sim(e, e) >= p.matcher.threshold
    requires p.tracker.cooldown >= 0
    ensures var out := ProcessFrame(p, sim, frame, [Face(e, b1), Face(e, b2)], now);
            && out.result.Success?
            && out.result.value == [FaceResult(p.nextId, None, 1, b1), FaceResult(p.nextId, None, 1, b2)]
            && out.state.matcher.persons == p.matcher.persons + [NewPerson(p.nextId, now)]
            && out.state.matcher.embeddings == p.matcher.embeddings + [e]
  {
    var faces := [Face(e, b1), Face(e, b2)];
    var step1 := ProcessFace(p, sim, frame, faces[0], now);
    assert step1 == RegisterNew(p, frame, faces[0], now);
    var p1 := step1.state;
    assert step1.result == Success(FaceResult(p.nextId, None, 1, b1));
    var n := |p.matcher.embeddings|;
    assert p1.matcher.embeddings == p.matcher.embeddings + [e];
    assert Matcher.Score(p1.matcher, sim, e, n) == sim(e, e);
    assert forall j :: 0 <= j < n ==> Matcher.Score(p1.matcher, sim, e, j) == Matcher.Score(p.matcher, sim, e, j);
    var found := Matcher.FindBestMatch(p1.matcher, sim, e);
    assert found == Some(n) by {
      Matcher.BestMatchIsDetermined(p1.matcher, sim, e, n);
    }
    var step2 := ProcessFace(p1, sim, frame, faces[1], now);
    assert step2 == VisitKnown(p1, n, frame, faces[1], now);
    assert p1.matcher.persons[n] == NewPerson(p.nextId, now);
    assert !Tracker.ShouldLogVisit(p1.tracker, p.nextId, now);
    assert step2.state == p1;
    var tail := faces[1..];
    assert tail == [faces[1]] && tail[0] == faces[1] && tail[1..] == [];
    assert ProcessFrame(p1, sim, frame, tail[1..], now) == FrameOutput(p1, Success([]));
    assert step2.result == Success(FaceResult(p.nextId, None, 1, b2));
    assert [FaceResult(p.nextId, None, 1, b2)] + [] == [FaceResult(p.nextId, None, 1, b2)];
    var rest := ProcessFrame(p1, sim, frame, tail, now);
    assert rest == FrameOutput(p1, Success([FaceResult(p.nextId, None, 1, b2)]));
  }

  /** A run over three frames with one face each, the threshold at 0.5 and a
      thirty-second cooldown: the first frame registers the person and logs
      a visit, the second (five seconds later) finds the same person without
      logging, the third (thirty-five seconds after the first) logs a second
      visit. */
  lemma ThreeFrameScenario(sim: Matcher.Similarity, frame: Frame, e: Matcher.Embedding, box: BBox, t: Instant, id: PersonId)
    requires sim(e, e) >= 0.5
    requires CreateSnapshot(frame, box).Some?
    ensures var p0 := Pipeline(Matcher.FaceMatcher(0.5, [], []), Tracker.NewTracker(30 * MicrosPerSecond), [], id);
            var faces := [Face(e, box)];
            var o1 := ProcessFrame(p0, sim, frame, faces, t);
            var o2 := ProcessFrame(o1.state, sim, frame, faces, t + 5 * MicrosPerSecond);
            var o3 := ProcessFrame(o2.state, sim, frame, faces, t + 35 * MicrosPerSecond);
            && o1.result == Success([FaceResult(id, None, 1, box)])
            && o2.result == Success([FaceResult(id, None, 1, box)])
            && o3.result == Success([FaceResult(id, None, 2, box)])
            && |o1.state.visits| == 1 && |o2.state.visits| == 1 && |o3.state.visits| == 2
            && |o3.state.matcher.persons| == 1
  {
    var p0 := Pipeline(Matcher.FaceMatcher(0.5, [], []), Tracker.NewTracker(30 * MicrosPerSecond), [], id);
    var face := Face(e, box);
    var faces := [face];
    assert faces[1..] == [];

    var s1 := ProcessFace(p0, sim, frame, face, t);
    assert s1 == RegisterNew(p0, frame, face, t);
    var p1 := s1.state;
    assert p1.matcher.persons == [NewPerson(id, t)] && p1.matcher.embeddings == [e];
    assert s1.result == Success(FaceResult(id, None, 1, box));
    assert |p1.visits| == 1;
    assert ProcessFrame(p1, sim, frame, faces[1..], t) == FrameOutput(p1, Success([]));
    assert [FaceResult(id, None, 1, box)] + [] == [FaceResult(id, None, 1, box)];
    assert ProcessFrame(p0, sim, frame, faces, t) == FrameOutput(p1, Success([FaceResult(id, None, 1, box)]));
    assert p1.tracker.lastLogged[id] == t;

    var t2 := t + 5 * MicrosPerSecond;
    assert Matcher.FindBestMatch(p1.matcher, sim, e) == Some(0) by {
      Matcher.BestMatchIsDetermined(p1.matcher, sim, e, 0);
    }
    var s2 := ProcessFace(p1, sim, frame, face, t2);
    assert s2 == VisitKnown(p1, 0, frame, face, t2);
    assert !Tracker.ShouldLogVisit(p1.tracker, id, t2);
    var p2 := s2.state;
    assert p2 == p1;
    assert s2.result == Success(FaceResult(id, None, 1, box));
    assert ProcessFrame(p1, sim, frame, faces, t2) == FrameOutput(p2, Success([FaceResult(id, None, 1, box)]));

    var t3 := t + 35 * MicrosPerSecond;
    var s3 := ProcessFace(p2, sim, frame, face, t3);
    assert s3 == VisitKnown(p2, 0, frame, face, t3);
    assert Tracker.ShouldLogVisit(p2.tracker, id, t3);
    assert s3.result == Success(FaceResult(id, None, 2, box));
    assert |s3.state.visits| == 2;
    assert ProcessFrame(s3.state, sim, frame, faces[1..], t3) == FrameOutput(s3.state, Success([]));
    assert [FaceResult(id, None, 2, box)] + [] == [FaceResult(id, None, 2, box)];
    assert ProcessFrame(p2, sim, frame, faces, t3) == FrameOutput(s3.state, Success([FaceResult(id, None, 2, box)]));
  }
}

=== FILE: tracker.dfy ===
/**
 The active-person tracker: for each person id, the time that person's visit
 was last logged in this session, and the cooldown that must strictly pass
 before the next visit of the same person is logged.

 The source reads the wall clock inside `should_log_visit` and
 `record_person_logged`; here the current time is the parameter `now`.
 */
module Tracker {
  import opened Types

  /** The cooldown a tracker uses when none is given: sixty seconds. */
  const DefaultCooldown: int := 60 * MicrosPerSecond

  datatype ActivePersonTracker = ActivePersonTracker(cooldown: int, lastLogged: map<PersonId, Instant>)

  /** A tracker that has logged nobody yet. */
  function NewTracker(cooldown: int): (t: ActivePersonTracker)
    ensures t.cooldown == cooldown && t.lastLogged == map[]
  {
    ActivePersonTracker(cooldown, map[])
  }

  /** `should_log_visit`: an untracked person is always logged; a tracked one
      only once strictly more than the cooldown has passed since the last log. */
  function ShouldLogVisit(t: ActivePersonTracker, id: PersonId, now: Instant): (b: bool)
    ensures id !in t.lastLogged ==> b
    ensures id in t.lastLogged ==> (b <==> now - t.lastLogged[id] > t.cooldown)
  {
    match Get(t.lastLogged, id)
    case None => true
    case Some(last) => now - last > t.cooldown
  }

  function Get(m: map<PersonId, Instant>, id: PersonId): Option<Instant>
  {
    if id in m then Some(m[id]) else None
  }

  /** `record_person_logged`: the person's entry becomes `now`; every other
      entry and the cooldown stay as they were. */
  function RecordPersonLogged(t: ActivePersonTracker, id: PersonId, now: Instant): (r: ActivePersonTracker)
    ensures r.cooldown == t.cooldown
    ensures r.lastLogged.Keys == t.lastLogged.Keys + {id}
    ensures r.lastLogged[id] == now
    ensures forall k :: k in t.lastLogged && k != id ==> r.lastLogged[k] == t.lastLogged[k]
  {
    t.(lastLogged := t.lastLogged[id := now])
  }

  /** `clear_tracker`: forget every entry, keep the cooldown. */
  function ClearTracker(t: ActivePersonTracker): (r: ActivePersonTracker)
    ensures r.cooldown == t.cooldown
    ensures forall id :: id !in r.lastLogged
  {
    t.(lastLogged := map[])
  }

  /** Right after a log at `logged`, the same person is suppressed for every
      time that is at most one cooldown later, and allowed for every later
      time. */
  lemma RecordedIsSuppressedExactlyWithinCooldown(t: ActivePersonTracker, id: PersonId, logged: Instant, now: Instant)
    ensures !ShouldLogVisit(RecordPersonLogged(t, id, logged), id, now) <==> now - logged <= t.cooldown
  {
  }

  /** Logging one person does not change the decision for anybody else. */
  lemma RecordLeavesOthersAlone(t: ActivePersonTracker, id: PersonId, logged: Instant, other: PersonId, now: Instant)
    requires other != id
    ensures ShouldLogVisit(RecordPersonLogged(t, id, logged), other, now) == ShouldLogVisit(t, other, now)
  {
  }

  /** After a clear, every person is logged again, at any time. */
  lemma ClearedLogsEveryone(t: ActivePersonTracker, id: PersonId, now: Instant)
    ensures ShouldLogVisit(ClearTracker(t), id, now)
  {
  }

  /** The cooldown boundary with the default sixty seconds: a log at time 0
      suppresses the person at 60 s exactly, and a microsecond later it is
      logged again. */
  lemma DefaultCooldownBoundary(id: PersonId)
    ensures ShouldLogVisit(NewTracker(DefaultCooldown), id, 0)
    ensures var t := RecordPersonLogged(NewTracker(DefaultCooldown), id, 0);
            !ShouldLogVisit(t, id, 60 * MicrosPerSecond) && ShouldLogVisit(t, id, 60 * MicrosPerSecond + 1)
  {
  }
}

=== FILE: types.dfy ===
/**
 Shared vocabulary of the face logger: optional values, results of operations
 that can fail, and the `Person` record that both the matcher and the
 recognition pipeline hold.
 */
module Types {

  /** A value that may be absent (Python's `None`). */
  datatype Option<+T> = None | Some(value: T)

  /** The outcome of an operation that either succeeds or raises. */
  datatype Result<+R, +E> = Success(value: R) | Failure(error: E)

  /** Person identifiers. The source uses random UUIDs; the model only needs
      distinct values, so it uses natural numbers handed out in order. */
  type PersonId = nat

  /** Points in time, in microseconds (the resolution of Django datetimes). */
  type Instant = int

  const MicrosPerSecond: int := 1_000_000

  /** A registered identity as it lives in memory. The embedding itself is
      kept by the matcher, index-aligned with the persons it holds. */
  datatype Person = Person(id: PersonId, name: Option<string>, lastSeen: Instant, visitCount: nat)

  /** The default `visit_count` of a freshly created person. */
  const DefaultVisitCount: nat := 1

  /** A brand-new person: no name, first seen `now`, default visit count. */
  function NewPerson(id: PersonId, now: Instant): (p: Person)
    ensures p.id == id && p.name.None? && p.lastSeen == now
    ensures p.visitCount == 1
  {
    Person(id, None, now, DefaultVisitCount)
  }
}
